=== FILE: README.md ===
# IPO list handler — a Dafny model

This project models the `/api/ipos` request handler of the IPO agent
(`pages/api/ipos.js`). The handler asks three sources for IPO records in a fixed
priority order: the IPOAlerts API, then a scrape of Chittorgarh's table, then a
scrape of MoneyControl's table. It keeps the first truthy payload. If that
payload holds no records, it answers with empty lists and a fixed message.
Otherwise it splits the records into `upcoming` and `listed` by their `status`,
and enriches every listed record with a `performance` object built from a
historical close-price series.

The network calls and the HTML parsing are inputs of the model:

- what IPOAlerts returned (`Option<Value>`);
- the rows of each scraped table (`Option<seq<Row>>`, where a row is the list of its cell texts);
- a function giving the outcome of the historical-series lookup for a record, from its position among the listed records, its symbol and its listing date. Each record makes its own lookup and reads the clock for the end of the range itself, so two records with the same symbol can see different outcomes.

What is left is pure and total.

Modules:

- `Wrappers`: `Option`.
- `Js`: JSON-shaped values, ECMAScript truthiness, property reads, `length`, and when string conversion throws.
- `Fields`: the property names and status strings the code uses.
- `Seqs`: order-preserving `Filter` (JavaScript's `Array.prototype.filter`) and its index-based reference `Positions`.
- `Text`: `String.prototype.trim`.
- `Scrapers`: mapping table rows to records, shared by both scrapers.
- `Enrich`: the per-record `performance` enrichment.
- `Handler`: the fallback chain, the emptiness check, bucketing, and the whole request.

The model follows the code as written:

- The fallback tests JavaScript falsiness (`!ipoData`), not emptiness. A source that returns `{ data: [] }` stops the chain and produces the "no data" message, even if a later source has records (`EmptyAlertsStopsChain`, `EmptyScrapeStopsChain`). Any falsy IPOAlerts body (`false`, `0`, `""`, `null`) moves on to the next source.
- There are only two buckets, `upcoming` and `listed`. A record is listed exactly when its `status` is the string `"Listed"`, compared case-sensitively. Everything else, including an unknown status or no status at all, is upcoming. The code has no name normalisation, no merging of records from different sources, no "current" bucket and no cache, so none of these is modelled.
- Some faults inside the outer `try` are modelled explicitly, because the outer `catch` turns them into the same degraded response. There are three of them:
  - a truthy `data` that is not an array and whose `length` is not 0;
  - an array that holds `null`;
  - a listed record whose truthy `symbol` cannot be converted to a string. That is an object with its own `toString` property, or an array holding such an element (`Js.ToStringThrows`).

  In the last case, formatting the symbol into the lookup URL throws. The lookup's own `catch` and then the record's `catch` format the symbol again for their warnings, so they throw too. The record's promise rejects, `Promise.all` rejects with it, and every other record is lost as well. In all three cases `Handler.Body` returns `Threw`. So the message is set exactly when the chosen payload is not an object whose `data` is a non-empty array with no `null` element and no such listed record (`Handler.Usable`).

## Model

| member | source | states |
|---|---|---|
| Seqs.Filter | pages/api/ipos.js:109 | the filtered list is no longer than the input, every kept element satisfies the test, and it is a sub-multiset of the input |
| Seqs.FilterIsPositions | pages/api/ipos.js:109 | the filtered list is exactly the input's elements at the indices that pass the test, in increasing index order (order preserved, nothing extra) |
| Seqs.FilterPartition | pages/api/ipos.js:109-134 | filtering with a test and with its negation splits the input exactly: the two multisets add up to the input and the lengths to its length |
| Text.Trim | pages/api/ipos.js:35-37 | `trim()` returns the contiguous slice of the cell text that drops only ECMAScript white space on both sides and has none at either end |
| Text.TrimIdempotent | pages/api/ipos.js:35-37 | trimming an already trimmed cell changes nothing |
| Scrapers.CellText | pages/api/ipos.js:35-37 | a field is the trimmed text of cell k of its row, or "" when the row has fewer cells, and has no white space at either end |
| Scrapers.RowRecord | pages/api/ipos.js:33-39 | a row becomes an object with exactly the properties name, issueOpenDate, issueCloseDate and status; name and the two dates are the trimmed texts of cells 0, 1 and 2, and the status is "Upcoming" |
| Scrapers.RowRecordTrimmed | pages/api/ipos.js:35-37 | the name and both issue dates of a scraped record have no white space at either end |
| Scrapers.MapRows | pages/api/ipos.js:31-41 | record k is built from the k-th row that has at least one cell, so rows without cells are skipped and row order is kept; every record has status "Upcoming" |
| Scrapers.ScrapeTable | pages/api/ipos.js:26-70 | a scraper returns a falsy payload (`null`) exactly when the page failed; otherwise `{ data }` with every record status "Upcoming" |
| Scrapers.ScrapeCelllessPage | pages/api/ipos.js:31-42 | a page whose rows all lack cells still returns a payload, `{ data: [] }` |
| Enrich.LookupKey | pages/api/ipos.js:113-118 | a record with a truthy symbol looks up exactly its own position, symbol and listing date: history sources that agree on that one query give the same enriched record |
| Enrich.Performance | pages/api/ipos.js:113-125 | `performance` is null exactly when there is no truthy symbol, the lookup failed, or the series is empty; otherwise it holds the first close, the last close and the formatted return between them |
| Enrich.EnrichOne | pages/api/ipos.js:112-129 | the record's promise rejects exactly when its symbol cannot be converted to a string. Otherwise the copy keeps every other property of the record and adds or replaces only `performance`. That is null exactly when there is no truthy symbol, the lookup failed, or the series is empty, and otherwise the `Performance` object of first close, last close and formatted return |
| Enrich.EnrichAll | pages/api/ipos.js:110-131 | `Promise.all` rejects exactly when some listed record's symbol cannot be converted to a string. Otherwise there is one enriched record per listed record, same length and order. Each equals its input except for `performance`, which is that record's `Performance` value: null exactly in its no-symbol, failed-lookup and empty-series cases, otherwise its first and last close and formatted return |
| Enrich.NoSymbolNoLookup | pages/api/ipos.js:113 | without a truthy symbol the history source is never consulted and `performance` is null |
| Enrich.EnrichIsolated | pages/api/ipos.js:110-131 | whether the enrichment rejects does not depend on any lookup's outcome. When it settles, a record's result depends only on its own lookup, so a failure for another record, even one with the same symbol, cannot affect it |
| Handler.Consulted | pages/api/ipos.js:99-104 | sources are called in the order IPOAlerts, Chittorgarh, MoneyControl; a later one only after every earlier one gave a falsy payload, and the chain stops at the first truthy one |
| Handler.Chosen | pages/api/ipos.js:100-104 | the payload used is the one returned by the last source called |
| Handler.FallbackOrder | pages/api/ipos.js:99-104 | Chittorgarh is called exactly when IPOAlerts' payload is falsy, MoneyControl exactly when Chittorgarh failed too, and a truthy IPOAlerts payload is always the one used |
| Handler.LaterSourcesIgnored | pages/api/ipos.js:100-104 | sources that are not called cannot change the response |
| Handler.EmptyAlertsStopsChain | pages/api/ipos.js:103-107 | an IPOAlerts body `{ data: [] }` stops the chain at IPOAlerts and gives the degraded response |
| Handler.EmptyScrapeStopsChain | pages/api/ipos.js:103-107 | a Chittorgarh page with no rows that have cells stops the chain before MoneyControl and gives the degraded response |
| Handler.Body | pages/api/ipos.js:106-135 | the guarded code returns without a message exactly on a usable payload: an object whose `data` is a non-empty array with no `null` element and no listed record whose symbol cannot be converted to a string. Any message it returns comes with empty lists |
| Handler.BodyOfUsable | pages/api/ipos.js:106-135 | on a usable payload `Promise.all` settles and the guarded code returns without a message: the non-listed records, and the enriched listed records |
| Handler.CleanRecordsSettle | pages/api/ipos.js:109-131 | `Promise.all` over the listed records settles if and only if no listed record has a symbol that cannot be converted to a string |
| Handler.BrokenRecordRejects | pages/api/ipos.js:71-131 | one listed record whose symbol cannot be converted to a string rejects the whole `Promise.all` |
| Handler.BrokenSymbolDegrades | pages/api/ipos.js:106-146 | one listed record whose symbol cannot be converted to a string makes the whole response the degraded one, losing every other record |
| Handler.ToStringKeyDegrades | pages/api/ipos.js:71-146 | an IPOAlerts record `{ status: "Listed", symbol: { toString: 1 } }` gives the degraded response |
| Seqs.FilterHas | pages/api/ipos.js:109 | `filter` drops no element that passes the test |
| Handler.BodyOfUnusable | pages/api/ipos.js:106-107 | on any other payload the guarded code gives the degraded response or throws |
| Handler.EnrichedStaysListed | pages/api/ipos.js:109-133 | enriched listed records still have status "Listed" and carry `performance` |
| Handler.Handle | pages/api/ipos.js:93-146 | the message is set exactly when the chosen payload is not usable (no records, a `null` record, a non-array `data`, or a listed record whose symbol cannot be converted to a string), and then both lists are empty. Otherwise the bucket sizes sum to the record count, upcoming holds no listed record, and every listed record is listed and enriched |
| Handler.ScrapedPayloadListsNothing | pages/api/ipos.js:103-109 | when IPOAlerts gave a falsy payload, `listed` is empty and every upcoming record has status "Upcoming" |
| Handler.HandlePartition | pages/api/ipos.js:109-134 | on a usable payload every record lands in exactly one bucket. `upcoming` is the non-listed records and `listed` the settled enrichments of the listed ones, each in input order |

## Left out

- Network I/O is not modelled: the IPOAlerts request (URL, API-key header, HTTP status check, JSON parsing), the two page fetches, and `res.status(200).json(...)`. Adapter outcomes and the response are plain values.
- `fetchNSEHistorical` (request, response parsing, `parseFloat`) is not modelled. The historical lookup is a function parameter. Its `None` answer stands for any fault that the per-record `catch` absorbs. A listing date that cannot be converted to a string is one: the lookup's `catch` turns it into an empty series. The one fault no `catch` absorbs, a symbol that cannot be converted to a string, is modelled separately (`Enrich.SymbolFaults`). The lookup may answer with any values as closes, although `parseFloat` only yields numbers.
- The cheerio HTML selection is not modelled. A page is given as its selected rows of cell texts.
- `returnsPct` is an uninterpreted function of the two closes. The floating-point arithmetic, a zero first close, and `toFixed(2)` are not modelled.
- The end date of the history range (`new Date().toISOString()`) is read from the clock separately for each record. It is folded into the history function, which takes the record's index, so it may differ between records.
- `Promise.all` concurrency is modelled as a map over the listed records. The map rejects when any record's promise rejects, which happens only for a symbol that cannot be converted to a string. Which rejection comes first, and the lookups still running after it, are not modelled: the outer `catch` gives the same response either way.
- `console.warn` / `console.error` logging is not modelled.
- Property order of `{ ...ipo, performance }` is not modelled. Objects are maps, so key order in the serialised JSON is not represented.
- JavaScript numbers are modelled as reals plus `NaN`. Infinity and negative zero are not represented. A string's `length` counts code points; it is only ever compared with zero.
- `pages/index.js`, `pages/ipo/[name].js`, `pages/api/ipo/[name].js`, `pages/api/ipo/[open].js`, `lib/redis.js` and `lib/db.js` are not part of this model. They are presentation code, callers of the handler, or I/O wrappers around Redis and Supabase.
- Name normalisation, fuzzy merging, a "current" bucket and response caching are not modelled, because the handler's code has none of them.

=== FILE: enrich.dfy ===
/** Post-listing performance of the records whose status is "Listed":
    each one is copied with a `performance` property computed from a
    historical close-price series, or `null` when there is none. */
module Enrich {
  import opened Wrappers
  import opened Js
  import F = Fields

  /** One point of a historical price series, `{ date, close }`. */
  datatype Point = Point(date: Value, close: Value)

  /** The outcome of the historical-series lookup made for one record,
      given the record's position among the listed records, its `symbol`
      and its `listingDate` (which may be absent). The end of the range,
      today's date, is read from the clock separately for each record, so
      it is folded into this function together with the network: since the
      function takes the record's index, two records with the same symbol
      and date may still see different outcomes. `None` stands for a fault
      raised while enriching that record and absorbed by its own `catch`,
      which turns it into `performance: null`; a listing date whose string
      conversion throws is one such fault. Closes are the numbers
      `parseFloat` produces. */
  type History = (nat, Value, Option<Value>) -> Option<seq<Point>>

  /** `((lastClose - firstClose) / firstClose * 100).toFixed(2)`, left
      uninterpreted: the floating-point arithmetic is not modelled. */
  type ReturnsFormat = (Value, Value) -> string

  /** The lookup a record triggers: its symbol and listing date when the
      symbol is truthy, and no lookup at all otherwise. */
  function Query(ipo: Value): Option<(Value, Option<Value>)>
    requires ipo.Obj?
  {
    var symbol := Get(ipo, F.Symbol);
    if TruthyProp(symbol) then Some((symbol.value, Get(ipo, F.ListingDate))) else None
  }

  /** The series the lookup for record `i` returned, if it made one and it did not fail. */
  function Series(ipo: Value, i: nat, history: History): Option<seq<Point>>
    requires ipo.Obj?
  {
    match Query(ipo)
    case None => None
    case Some(q) => history(i, q.0, q.1)
  }

  /** The cases in which a record gets `performance: null`: no truthy
      symbol (no lookup is made), a failed lookup, or an empty series. */
  predicate NoSeries(ipo: Value, i: nat, history: History)
    requires ipo.Obj?
  {
    Query(ipo).None? || Series(ipo, i, history).None? || |Series(ipo, i, history).value| == 0
  }

  /** The `performance` property of an enriched record: `null` exactly in
      the `NoSeries` cases; otherwise the first and the last close of the
      series and the formatted return between them. */
  function Performance(ipo: Value, i: nat, history: History, pct: ReturnsFormat): (p: Value)
    requires ipo.Obj?
    ensures p == Null <==> NoSeries(ipo, i, history)
    ensures !NoSeries(ipo, i, history) ==>
              var hist := Series(ipo, i, history).value;
              var first, last := hist[0].close, hist[|hist| - 1].close;
              p == Obj(map[F.FirstClose := first, F.LastClose := last, F.ReturnsPct := Str(pct(first, last))])
  {
    match Series(ipo, i, history)
    case None => Null
    case Some(hist) =>
      if |hist| == 0 then Null
      else
        var first, last := hist[0].close, hist[|hist| - 1].close;
        Obj(map[F.FirstClose := first, F.LastClose := last, F.ReturnsPct := Str(pct(first, last))])
  }

  /** Whether enriching the record rejects instead of settling. The record
      has a truthy symbol, so it is formatted into the request URL; when
      that conversion throws, the `catch` of the lookup formats the symbol
      again for its warning and throws again, and so does the record's own
      `catch`. A throwing symbol is always truthy, being an object or an
      array. */
  predicate SymbolFaults(ipo: Value)
    requires ipo.Obj?
  {
    var symbol := Get(ipo, F.Symbol);
    symbol.Some? && ToStringThrows(symbol.value)
  }

  /** `{ ...ipo, performance }` when the record's promise settles: the
      record with only its `performance` property added or replaced, which
      is `null` exactly when the record has no truthy symbol, its lookup
      failed, or its series is empty. `None` when the promise rejects. */
  function EnrichOne(ipo: Value, i: nat, history: History, pct: ReturnsFormat): (e: Option<Value>)
    requires ipo.Obj?
    ensures e.None? <==> SymbolFaults(ipo)
    ensures e.Some? ==> e.value.Obj? && e.value.fields.Keys == ipo.fields.Keys + {F.Performance}
    ensures e.Some? ==> forall k :: k in ipo.fields && k != F.Performance ==> e.value.fields[k] == ipo.fields[k]
    ensures e.Some? ==> (e.value.fields[F.Performance] == Null <==> NoSeries(ipo, i, history))
    ensures e.Some? ==> e.value.fields[F.Performance] == Performance(ipo, i, history, pct)
  {
    if SymbolFaults(ipo) then None
    else Some(Obj(ipo.fields[F.Performance := Performance(ipo, i, history, pct)]))
  }

  /** `Promise.all` over the per-record enrichments: `None`, a rejection,
      exactly when some record's symbol faults; otherwise one enriched
      record per input record, in the same order, each equal to its input
      but for `performance`, which is `null` exactly in that record's
      `NoSeries` cases. */
  function EnrichAll(listed: seq<Value>, history: History, pct: ReturnsFormat): (out: Option<seq<Value>>)
    requires forall i :: 0 <= i < |listed| ==> listed[i].Obj?
    ensures out.None? <==> exists i :: 0 <= i < |listed| && SymbolFaults(listed[i])
    ensures out.Some? ==> |out.value| == |listed|
    ensures out.Some? ==> forall i :: 0 <= i < |listed| ==>
              Some(out.value[i]) == EnrichOne(listed[i], i, history, pct)
    ensures out.Some? ==> forall i :: 0 <= i < |listed| ==>
              out.value[i].Obj? && out.value[i].fields.Keys == listed[i].fields.Keys + {F.Performance}
    ensures out.Some? ==> forall i, k :: 0 <= i < |listed| && k in listed[i].fields && k != F.Performance ==>
              out.value[i].fields[k] == listed[i].fields[k]
    ensures out.Some? ==> forall i :: 0 <= i < |listed| ==>
              (out.value[i].fields[F.Performance] == Null <==> NoSeries(listed[i], i, history))
    ensures out.Some? ==> forall i :: 0 <= i < |listed| ==>
              out.value[i].fields[F.Performance] == Performance(listed[i], i, history, pct)
  {
    if exists i :: 0 <= i < |listed| && SymbolFaults(listed[i]) then None
    else Some(seq(|listed|, i requires 0 <= i < |listed| => EnrichOne(listed[i], i, history, pct).value))
  }

  /** A record with a truthy symbol looks up exactly its own position, its
      symbol and its listing date: two history sources that agree on that
      one query give the same enriched record. */
  lemma LookupKey(ipo: Value, i: nat, h1: History, h2: History, pct: ReturnsFormat)
    requires ipo.Obj? && TruthyProp(Get(ipo, F.Symbol))
    requires h1(i, Get(ipo, F.Symbol).value, Get(ipo, F.ListingDate))
          == h2(i, Get(ipo, F.Symbol).value, Get(ipo, F.ListingDate))
    ensures EnrichOne(ipo, i, h1, pct) == EnrichOne(ipo, i, h2, pct)
  {
  }

  /** A record without a truthy symbol makes no lookup and always settles:
      its enrichment is the same whatever the history source would have
      answered. */
  lemma NoSymbolNoLookup(ipo: Value, i: nat, h1: History, h2: History, pct: ReturnsFormat)
    requires ipo.Obj? && !TruthyProp(Get(ipo, F.Symbol))
    ensures EnrichOne(ipo, i, h1, pct) == EnrichOne(ipo, i, h2, pct)
    ensures EnrichOne(ipo, i, h1, pct).Some?
    ensures EnrichOne(ipo, i, h1, pct).value.fields[F.Performance] == Null
  {
  }

  /** Lookup outcomes are isolated per record: whether the enrichment
      rejects does not depend on the history source at all, and when it
      settles, record `i`'s result depends only on the answer to its own
      lookup, so a failure or an empty series for any other record, even
      one with the same symbol, leaves it unchanged. */
  lemma EnrichIsolated(listed: seq<Value>, h1: History, h2: History, pct: ReturnsFormat, i: nat)
    requires forall j :: 0 <= j < |listed| ==> listed[j].Obj?
    requires i < |listed|
    requires Series(listed[i], i, h1) == Series(listed[i], i, h2)
    ensures EnrichAll(listed, h1, pct).Some? <==> EnrichAll(listed, h2, pct).Some?
    ensures EnrichAll(listed, h1, pct).Some? ==>
              EnrichAll(listed, h1, pct).value[i] == EnrichAll(listed, h2, pct).value[i]
  {
  }
}

=== FILE: fields.dfy ===
/** Property names the handler and the scrapers read and write. */
module Fields {
  const Data: string := "data"
  const Name: string := "name"
  const IssueOpenDate: string := "issueOpenDate"
  const IssueCloseDate: string := "issueCloseDate"
  const Status: string := "status"
  const Symbol: string := "symbol"
  const ListingDate: string := "listingDate"
  const Performance: string := "performance"
  const FirstClose: string := "firstClose"
  const LastClose: string := "lastClose"
  const ReturnsPct: string := "returnsPct"

  /** Status values the code compares against or assigns. */
  const Listed: string := "Listed"
  const Upcoming: string := "Upcoming"
}

=== FILE: handler.dfy ===
/** The `/api/ipos` request handler: tiered fallback over three sources,
    the degraded-success check, bucketing by status and enrichment of the
    listed records. Network outcomes are inputs; the handler's own logic is
    pure and total. */
module Handler {
  import opened Wrappers
  import opened Js
  import opened Seqs
  import opened Scrapers
  import opened Enrich
  import F = Fields

  /** The three sources, in the order they are asked. */
  datatype Source = IpoAlerts | Chittorgarh | MoneyControl

  /** What the three adapters would return on this request. `alerts` is the
      parsed IPOAlerts body, `None` when the HTTP status was not OK or the
      call failed; each page is the scraped table rows, `None` when fetching
      or parsing the page failed. */
  datatype Inputs = Inputs(alerts: Option<Value>, chittorgarh: Option<seq<Row>>, moneyControl: Option<seq<Row>>)

  /** The JSON body sent back, always with status 200. */
  datatype Response = Response(upcoming: seq<Value>, listed: seq<Value>, message: Option<string>)

  /** How the guarded part of the handler ended: with a response, or with a
      fault the outer `catch` turns into the degraded response. */
  datatype Outcome = Returned(response: Response) | Threw

  const NoDataMessage: string := "No IPO data available. Try again later."

  /** Degraded success: no records and the fixed explanatory message. */
  const Degraded: Response := Response([], [], Some(NoDataMessage))

  /** The value the IPOAlerts adapter returns: the parsed body, or `null`. */
  function IpoAlertsPayload(resp: Option<Value>): Value {
    resp.GetOr(Null)
  }

  /** The payload a given source returns on this request. */
  function PayloadOf(inputs: Inputs, s: Source): Value {
    match s
    case IpoAlerts => IpoAlertsPayload(inputs.alerts)
    case Chittorgarh => ScrapeTable(inputs.chittorgarh)
    case MoneyControl => ScrapeTable(inputs.moneyControl)
  }

  /** The sources the handler calls, in call order: each later source is
      called only when every earlier one returned a falsy payload. */
  function Consulted(inputs: Inputs): (cs: seq<Source>)
    ensures 1 <= |cs| <= 3 && cs == [IpoAlerts, Chittorgarh, MoneyControl][..|cs|]
    ensures forall k :: 0 <= k < |cs| - 1 ==> !Truthy(PayloadOf(inputs, cs[k]))
    ensures |cs| < 3 ==> Truthy(PayloadOf(inputs, cs[|cs| - 1]))
  {
    if Truthy(PayloadOf(inputs, IpoAlerts)) then [IpoAlerts]
    else if Truthy(PayloadOf(inputs, Chittorgarh)) then [IpoAlerts, Chittorgarh]
    else [IpoAlerts, Chittorgarh, MoneyControl]
  }

  /** `ipoData` after the fallback chain: the payload of the last source
      called, i.e. the first truthy payload in priority order, or the last
      source's (falsy) payload when none is truthy. */
  function Chosen(inputs: Inputs): (p: Value)
    ensures p == PayloadOf(inputs, Consulted(inputs)[|Consulted(inputs)| - 1])
  {
    var ipoData := IpoAlertsPayload(inputs.alerts);
    var ipoData := if !Truthy(ipoData) then ScrapeTable(inputs.chittorgarh) else ipoData;
    if !Truthy(ipoData) then ScrapeTable(inputs.moneyControl) else ipoData
  }

  /** Exactly "Listed", compared case-sensitively. Anything that is not an
      object has no `status` and is never listed. */
  predicate IsListed(v: Value) {
    v.Obj? && F.Status in v.fields && v.fields[F.Status] == Str(F.Listed)
  }

  predicate NotListed(v: Value) {
    !IsListed(v)
  }

  /** A listed record whose enrichment rejects, and with it `Promise.all`:
      its symbol cannot be converted to a string. */
  predicate BreaksEnrichment(v: Value) {
    IsListed(v) && SymbolFaults(v)
  }

  predicate EnrichesCleanly(v: Value) {
    !BreaksEnrichment(v)
  }

  /** A payload the handler can bucket: an object whose `data` is a
      non-empty array with no `null` element and no listed record whose
      symbol cannot be converted to a string. */
  predicate Usable(p: Value) {
    && p.Obj? && F.Data in p.fields && p.fields[F.Data].Arr?
    && |p.fields[F.Data].items| > 0
    && (forall i :: 0 <= i < |p.fields[F.Data].items| ==> p.fields[F.Data].items[i] != Null)
    && (forall i :: 0 <= i < |p.fields[F.Data].items| ==> EnrichesCleanly(p.fields[F.Data].items[i]))
  }

  /** The guarded part of the handler, from the emptiness check on. A
      falsy payload, a falsy `data` or a `data` of length 0 gives the
      degraded response; a `data` without `filter` (anything but an array)
      or an array holding `null` (whose `status` cannot be read) throws, and
      so does a rejected `Promise.all`.
      It returns without a message exactly on a usable payload, and any
      message it returns comes with the degraded response. */
  function Body(payload: Value, history: History, pct: ReturnsFormat): (o: Outcome)
    ensures (o.Returned? && o.response.message.None?) <==> Usable(payload)
    ensures o.Returned? && o.response.message.Some? ==> o.response == Degraded
  {
    if !Truthy(payload) then Returned(Degraded)
    else
      var data := Get(payload, F.Data);
      if !TruthyProp(data) || Length(data.value) == Some(Num(0.0)) then Returned(Degraded)
      else
        match data.value
        case Arr(items) =>
          if Null in items then Threw
          else
            CleanRecordsSettle(items, history, pct);
            (match EnrichAll(Filter(items, IsListed), history, pct)
             case None => Threw
             case Some(enriched) => Returned(Response(Filter(items, NotListed), enriched, None)))
        case _ => Threw
  }

  /** The records of a usable payload. */
  function Records(p: Value): seq<Value>
    requires Usable(p)
  {
    p.fields[F.Data].items
  }

  /** On a usable payload the enrichment settles and the guarded part
      returns without a message: `upcoming` keeps the records that are not
      listed and `listed` the enriched listed ones, both in input order. */
  lemma BodyOfUsable(payload: Value, history: History, pct: ReturnsFormat)
    requires Usable(payload)
    ensures EnrichAll(Filter(Records(payload), IsListed), history, pct).Some?
    ensures Body(payload, history, pct) ==
              Returned(Response(Filter(Records(payload), NotListed),
                                EnrichAll(Filter(Records(payload), IsListed), history, pct).value, None))
  {
    var items := Records(payload);
    assert Length(Arr(items)) != Some(Num(0.0));
    assert Null !in items;
    CleanRecordsSettle(items, history, pct);
  }

  /** `Promise.all` over the listed records settles exactly when no record
      breaks enrichment. */
  lemma CleanRecordsSettle(items: seq<Value>, history: History, pct: ReturnsFormat)
    ensures (forall i :: 0 <= i < |items| ==> EnrichesCleanly(items[i])) <==>
              EnrichAll(Filter(items, IsListed), history, pct).Some?
  {
    if forall i :: 0 <= i < |items| ==> EnrichesCleanly(items[i]) {
      FilterKeepsProperty(items, IsListed, EnrichesCleanly);
    } else {
      var j :| 0 <= j < |items| && BreaksEnrichment(items[j]);
      BrokenRecordRejects(items, history, pct, j);
    }
  }

  /** One listed record whose symbol faults rejects the whole `Promise.all`. */
  lemma BrokenRecordRejects(items: seq<Value>, history: History, pct: ReturnsFormat, j: nat)
    requires j < |items| && BreaksEnrichment(items[j])
    ensures EnrichAll(Filter(items, IsListed), history, pct).None?
  {
    var listed := Filter(items, IsListed);
    FilterHas(items, IsListed, j);
    var k :| 0 <= k < |listed| && listed[k] == items[j];
    assert SymbolFaults(listed[k]);
  }

  /** On any other payload the guarded part gives the degraded response or throws. */
  lemma BodyOfUnusable(payload: Value, history: History, pct: ReturnsFormat)
    requires !Usable(payload)
    ensures Body(payload, history, pct) in {Returned(Degraded), Threw}
  {
  }

  /** An enriched listed record is still listed and carries `performance`. */
  lemma EnrichedStaysListed(items: seq<Value>, history: History, pct: ReturnsFormat)
    ensures var listed := Filter(items, IsListed);
            EnrichAll(listed, history, pct).Some? ==>
              forall i :: 0 <= i < |listed| ==>
                IsListed(EnrichAll(listed, history, pct).value[i])
                && F.Performance in EnrichAll(listed, history, pct).value[i].fields
  {
  }

  /** One request. The message is set exactly when the chosen payload holds
      no usable records, and then both lists are empty; otherwise every
      record is bucketed, listed ones enriched, and no record is lost. */
  function Handle(inputs: Inputs, history: History, pct: ReturnsFormat): (r: Response)
    ensures r.message.Some? <==> !Usable(Chosen(inputs))
    ensures r.message.Some? ==> r == Degraded
    ensures Usable(Chosen(inputs)) ==>
              |r.upcoming| + |r.listed| == |Chosen(inputs).fields[F.Data].items|
    ensures forall i :: 0 <= i < |r.upcoming| ==> !IsListed(r.upcoming[i])
    ensures forall i :: 0 <= i < |r.listed| ==>
              IsListed(r.listed[i]) && F.Performance in r.listed[i].fields
  {
    var payload := Chosen(inputs);
    var r := match Body(payload, history, pct)
             case Returned(response) => response
             case Threw => Degraded;
    if Usable(payload) then
      var items := Records(payload);
      BodyOfUsable(payload, history, pct);
      FilterPartition(items, IsListed, NotListed);
      EnrichedStaysListed(items, history, pct);
      r
    else
      BodyOfUnusable(payload, history, pct);
      r
  }

  /** Fallback order: IPOAlerts is always asked; Chittorgarh exactly when
      IPOAlerts gave a falsy payload; MoneyControl exactly when both did. The
      payload used is IPOAlerts' whenever that is truthy. */
  lemma FallbackOrder(inputs: Inputs)
    ensures Consulted(inputs)[0] == IpoAlerts
    ensures Chittorgarh in Consulted(inputs) <==> !Truthy(IpoAlertsPayload(inputs.alerts))
    ensures MoneyControl in Consulted(inputs) <==>
              !Truthy(IpoAlertsPayload(inputs.alerts)) && inputs.chittorgarh.None?
    ensures Truthy(IpoAlertsPayload(inputs.alerts)) ==> Chosen(inputs) == IpoAlertsPayload(inputs.alerts)
  {
  }

  /** A source that is not called cannot influence the response: with a
      truthy IPOAlerts payload both scrapers are irrelevant, and once the
      Chittorgarh page was scraped MoneyControl is irrelevant. */
  lemma LaterSourcesIgnored(inputs: Inputs, other: Inputs, history: History, pct: ReturnsFormat)
    requires other.alerts == inputs.alerts
    requires !Truthy(IpoAlertsPayload(inputs.alerts)) ==>
               inputs.chittorgarh.Some? && other.chittorgarh == inputs.chittorgarh
    ensures Handle(other, history, pct) == Handle(inputs, history, pct)
  {
  }

  /** The fallback tests truthiness, not emptiness: an IPOAlerts body
      `{ data: [] }` stops the chain, and the response is the degraded one
      whatever the scrapers would have found. */
  lemma EmptyAlertsStopsChain(inputs: Inputs, history: History, pct: ReturnsFormat)
    requires inputs.alerts == Some(Obj(map[F.Data := Arr([])]))
    ensures Consulted(inputs) == [IpoAlerts]
    ensures Handle(inputs, history, pct) == Degraded
  {
  }

  /** Likewise a Chittorgarh page whose rows all lack cells yields
      `{ data: [] }`, stops the chain before MoneyControl, and gives the
      degraded response. */
  lemma EmptyScrapeStopsChain(inputs: Inputs, history: History, pct: ReturnsFormat)
    requires !Truthy(IpoAlertsPayload(inputs.alerts))
    requires inputs.chittorgarh.Some?
    requires forall i :: 0 <= i < |inputs.chittorgarh.value| ==> !HasCells(inputs.chittorgarh.value[i])
    ensures MoneyControl !in Consulted(inputs)
    ensures Handle(inputs, history, pct) == Degraded
  {
    ScrapeCelllessPage(inputs.chittorgarh.value);
    FallbackOrder(inputs);
  }

  /** Scraped records are never listed: when IPOAlerts gave a falsy
      payload, `listed` is empty and every record is an upcoming one with
      status "Upcoming". */
  lemma ScrapedPayloadListsNothing(inputs: Inputs, history: History, pct: ReturnsFormat)
    requires !Truthy(IpoAlertsPayload(inputs.alerts))
    ensures Handle(inputs, history, pct).listed == []
    ensures forall i :: 0 <= i < |Handle(inputs, history, pct).upcoming| ==>
              IsScrapedRecord(Handle(inputs, history, pct).upcoming[i])
  {
    var payload := Chosen(inputs);
    if Usable(payload) {
      var recs := Records(payload);
      assert forall i :: 0 <= i < |recs| ==> IsScrapedRecord(recs[i]);
      assert Str(F.Upcoming) != Str(F.Listed);
      assert forall i :: 0 <= i < |recs| ==> !IsListed(recs[i]);
      FilterEmpty(recs, IsListed);
      FilterKeepsProperty(recs, NotListed, IsScrapedRecord);
      BodyOfUsable(payload, history, pct);
    }
  }

  /** One listed record whose symbol cannot be converted to a string
      rejects `Promise.all`, and the outer `catch` answers with the degraded
      response: the other records, however well formed, are lost too. */
  lemma BrokenSymbolDegrades(inputs: Inputs, history: History, pct: ReturnsFormat, j: nat)
    requires Chosen(inputs).Obj? && F.Data in Chosen(inputs).fields
    requires Chosen(inputs).fields[F.Data].Arr?
    requires j < |Chosen(inputs).fields[F.Data].items|
    requires BreaksEnrichment(Chosen(inputs).fields[F.Data].items[j])
    ensures Handle(inputs, history, pct) == Degraded
  {
    assert !EnrichesCleanly(Chosen(inputs).fields[F.Data].items[j]);
  }

  /** For instance an IPOAlerts record `{ status: "Listed", symbol: { toString: 1 } }`. */
  lemma ToStringKeyDegrades(inputs: Inputs, history: History, pct: ReturnsFormat)
    requires inputs.alerts ==
               Some(Obj(map[F.Data := Arr([Obj(map[F.Status := Str(F.Listed),
                                                    F.Symbol := Obj(map["toString" := Num(1.0)])])])]))
    ensures Handle(inputs, history, pct) == Degraded
  {
    var rec := Obj(map[F.Status := Str(F.Listed), F.Symbol := Obj(map["toString" := Num(1.0)])]);
    assert F.Status != F.Symbol;
    assert BreaksEnrichment(rec);
    BrokenSymbolDegrades(inputs, history, pct, 0);
  }

  /** Exact partition: every record lands in exactly one bucket. `upcoming`
      is the records that are not listed and `listed` the enriched listed
      ones, each in input order, and together they account for every record. */
  lemma HandlePartition(inputs: Inputs, history: History, pct: ReturnsFormat)
    requires Usable(Chosen(inputs))
    ensures var recs, r := Records(Chosen(inputs)), Handle(inputs, history, pct);
            && multiset(r.upcoming) + multiset(Filter(recs, IsListed)) == multiset(recs)
            && |r.upcoming| == |Positions(recs, NotListed)|
            && (forall k :: 0 <= k < |r.upcoming| ==> r.upcoming[k] == recs[Positions(recs, NotListed)[k]])
            && |r.listed| == |Positions(recs, IsListed)|
            && (forall k :: 0 <= k < |r.listed| ==>
                  Some(r.listed[k]) == EnrichOne(recs[Positions(recs, IsListed)[k]], k, history, pct))
  {
    var recs := Records(Chosen(inputs));
    BodyOfUsable(Chosen(inputs), history, pct);
    FilterPartition(recs, IsListed, NotListed);
    FilterIsPositions(recs, NotListed);
    FilterIsPositions(recs, IsListed);
  }
}

=== FILE: js.dfy ===
/** The slice of JavaScript value semantics the IPO handler relies on:
    JSON-shaped values, truthiness (ECMAScript ToBoolean), property reads
    and the `length` property. */
module Js {
  import opened Wrappers

  /** A value as `resp.json()` or an object literal can produce it.
      `NaN` is the number `parseFloat` yields for text that is not numeric. */
  datatype Value =
    | Null
    | Bool(b: bool)
    | Num(x: real)
    | NaN
    | Str(s: string)
    | Arr(items: seq<Value>)
    | Obj(fields: map<string, Value>)

  /** ECMAScript ToBoolean: `null`, `false`, `0`, `NaN` and `""` are falsy. */
  predicate Truthy(v: Value) {
    match v
    case Null => false
    case Bool(b) => b
    case Num(x) => x != 0.0
    case NaN => false
    case Str(s) => |s| > 0
    case Arr(_) => true
    case Obj(_) => true
  }

  /** ToBoolean of a property read; an absent property reads as `undefined`, which is falsy. */
  predicate TruthyProp(p: Option<Value>) {
    p.Some? && Truthy(p.value)
  }

  /** `v[key]` for a key other than `length`: only objects carry named
      properties in JSON data. Reading a property of `null` throws, so the
      caller must have ruled that out. */
  function Get(v: Value, key: string): Option<Value>
    requires !v.Null?
  {
    if v.Obj? && key in v.fields then Some(v.fields[key]) else None
  }

  /** Whether ECMAScript ToString throws on `v`, as it does when `v` is
      formatted into a template literal. An object asks for its `toString`
      method first; an own `toString` property read from JSON data is never
      callable, and the inherited `valueOf` returns the object itself, so
      the conversion raises a TypeError. An object without its own
      `toString` inherits the callable one and converts to
      `"[object Object]"`. An array is joined, which converts every element
      except `null`. Primitives always convert. */
  predicate ToStringThrows(v: Value)
    decreases v
  {
    match v
    case Obj(m) => "toString" in m
    case Arr(items) => exists i :: 0 <= i < |items| && ToStringThrows(items[i])
    case _ => false
  }

  /** `v.length`. A string's length is counted here in code points rather
      than UTF-16 units; the two agree on emptiness, the only thing the
      handler asks of it. */
  function Length(v: Value): Option<Value>
    requires !v.Null?
  {
    match v
    case Arr(items) => Some(Num(|items| as real))
    case Str(s) => Some(Num(|s| as real))
    case Obj(m) => if "length" in m then Some(m["length"]) else None
    case _ => None
  }
}

=== FILE: scrapers.dfy ===
/** The two HTML-table fallbacks (Chittorgarh and MoneyControl). Both map
    table rows to records the same way; only the page and the row selector
    differ, and the HTML selection itself is abstracted: a page is the list
    of its selected rows, each row the texts of its `<td>` cells. */
module Scrapers {
  import opened Wrappers
  import opened Js
  import opened Seqs
  import opened Text
  import F = Fields

  /** One selected `<tr>`: the text of each of its `<td>` cells, in order. */
  type Row = seq<string>

  /** Text of cell `k`; a row shorter than that reads as "" (the text of an
      empty selection). */
  function Cell(row: Row, k: nat): string {
    if k < |row| then row[k] else ""
  }

  /** Rows without any `<td>`, such as a header row of `<th>` cells, are skipped. */
  predicate HasCells(row: Row) {
    |row| > 0
  }

  /** A string value with no white space at either end. */
  predicate TrimmedText(v: Value) {
    v.Str? && IsTrimmed(v.s)
  }

  /** A record as the scrapers emit it: an object with status "Upcoming". */
  predicate IsScrapedRecord(v: Value) {
    v.Obj? && F.Status in v.fields && v.fields[F.Status] == Str(F.Upcoming)
  }

  /** The trimmed text of cell `k` as a string value; "" when the row has
      fewer cells. */
  function CellText(row: Row, k: nat): (v: Value)
    ensures TrimmedText(v)
    ensures k < |row| ==> v == Str(Trim(row[k]))
    ensures |row| <= k ==> v == Str("")
  {
    Str(Trim(Cell(row, k)))
  }

  /** A scraped record with the given name and issue dates. */
  function ScrapedRecord(name: Value, open: Value, close: Value): (v: Value)
    ensures v.Obj? && v.fields.Keys == {F.Name, F.IssueOpenDate, F.IssueCloseDate, F.Status}
    ensures IsScrapedRecord(v)
    ensures v.fields[F.Name] == name
    ensures v.fields[F.IssueOpenDate] == open && v.fields[F.IssueCloseDate] == close
  {
    assert |F.Name| == 4 && |F.Status| == 6 && |F.IssueOpenDate| == 13 && |F.IssueCloseDate| == 14;
    Obj(map[F.Name := name, F.IssueOpenDate := open, F.IssueCloseDate := close, F.Status := Str(F.Upcoming)])
  }

  /** The record built from one row: name and the two issue dates are the
      trimmed texts of the first three cells, and the status is "Upcoming". */
  function RowRecord(row: Row): (v: Value)
    ensures v.Obj? && v.fields.Keys == {F.Name, F.IssueOpenDate, F.IssueCloseDate, F.Status}
    ensures IsScrapedRecord(v)
    ensures v.fields[F.Name] == CellText(row, 0)
    ensures v.fields[F.IssueOpenDate] == CellText(row, 1)
    ensures v.fields[F.IssueCloseDate] == CellText(row, 2)
  {
    ScrapedRecord(CellText(row, 0), CellText(row, 1), CellText(row, 2))
  }

  /** The three texts of a scraped record are trimmed. */
  lemma RowRecordTrimmed(row: Row)
    ensures var v := RowRecord(row);
            TrimmedText(v.fields[F.Name])
            && TrimmedText(v.fields[F.IssueOpenDate]) && TrimmedText(v.fields[F.IssueCloseDate])
  {
  }

  /** The records of a scraped page: record `k` is built from the `k`-th
      row that has cells, so rows without cells are skipped, row order is
      kept, and every record carries status "Upcoming". */
  function MapRows(rows: seq<Row>): (recs: seq<Value>)
    ensures |recs| == |Positions(rows, HasCells)| <= |rows|
    ensures forall k :: 0 <= k < |recs| ==>
              recs[k] == RowRecord(rows[Positions(rows, HasCells)[k]])
    ensures forall k :: 0 <= k < |recs| ==> IsScrapedRecord(recs[k])
  {
    var kept := Filter(rows, HasCells);
    FilterIsPositions(rows, HasCells);
    seq(|kept|, k requires 0 <= k < |kept| => RowRecord(kept[k]))
  }

  /** A scraper's return value: `null` when fetching or parsing the page
      failed (`None`), otherwise `{ data: records }`, possibly with no records. */
  function ScrapeTable(page: Option<seq<Row>>): (v: Value)
    ensures Truthy(v) <==> page.Some?
    ensures page.None? ==> v == Null
    ensures page.Some? ==> v.Obj? && v.fields.Keys == {F.Data} && v.fields[F.Data].Arr?
    ensures page.Some? ==> v.fields[F.Data].items == MapRows(page.value)
    ensures page.Some? ==> forall i :: 0 <= i < |v.fields[F.Data].items| ==>
              IsScrapedRecord(v.fields[F.Data].items[i])
  {
    match page
    case None => Null
    case Some(rows) =>
      var recs := MapRows(rows);
      var v := Obj(map[F.Data := Arr(recs)]);
      assert v.fields[F.Data].items == recs;
      v
  }

  /** A page whose rows all lack cells still yields a payload, with no records. */
  lemma {:induction false} ScrapeCelllessPage(rows: seq<Row>)
    requires forall i :: 0 <= i < |rows| ==> !HasCells(rows[i])
    ensures ScrapeTable(Some(rows)) == Obj(map[F.Data := Arr([])])
  {
    FilterEmpty(rows, HasCells);
  }
}

=== FILE: seqs.dfy ===
/** Order-preserving selection over sequences, the shape of JavaScript's
    `Array.prototype.filter`, with an index-based reference description. */
module Seqs {

  /** The elements of `s` that satisfy `keep`, in their original order. */
  function Filter<T>(s: seq<T>, keep: T -> bool): (r: seq<T>)
    ensures |r| <= |s|
    ensures forall i :: 0 <= i < |r| ==> keep(r[i])
    ensures multiset(r) <= multiset(s)
  {
    if |s| == 0 then []
    else
      assert s == [s[0]] + s[1..];
      if keep(s[0]) then [s[0]] + Filter(s[1..], keep) else Filter(s[1..], keep)
  }

  /** The indices of `s` whose element satisfies `keep`, in increasing order:
      the reference against which `Filter` is described. */
  function Positions<T>(s: seq<T>, keep: T -> bool): (ps: seq<nat>)
    ensures forall k :: 0 <= k < |ps| ==> ps[k] < |s| && keep(s[ps[k]])
    ensures forall k, l :: 0 <= k < l < |ps| ==> ps[k] < ps[l]
    ensures forall i {:trigger i in ps} :: 0 <= i < |s| && keep(s[i]) ==> i in ps
  {
    if |s| == 0 then []
    else
      var init := Positions(s[..|s| - 1], keep);
      if keep(s[|s| - 1]) then init + [|s| - 1] else init
  }

  /** Filtering distributes over concatenation: what one part keeps is not
      affected by the other part, and the parts stay in order. */
  lemma {:induction false} FilterConcat<T>(a: seq<T>, b: seq<T>, keep: T -> bool)
    ensures Filter(a + b, keep) == Filter(a, keep) + Filter(b, keep)
  {
    if |a| == 0 {
      assert a + b == b;
    } else {
      assert (a + b)[1..] == a[1..] + b;
      FilterConcat(a[1..], b, keep);
    }
  }

  /** `Filter` keeps exactly the elements at `Positions`, in index order. */
  lemma {:induction false} FilterIsPositions<T>(s: seq<T>, keep: T -> bool)
    ensures |Filter(s, keep)| == |Positions(s, keep)|
    ensures forall k :: 0 <= k < |Positions(s, keep)| ==>
              Filter(s, keep)[k] == s[Positions(s, keep)[k]]
  {
    if |s| > 0 {
      var init, last := s[..|s| - 1], s[|s| - 1];
      assert s == init + [last];
      FilterConcat(init, [last], keep);
      FilterIsPositions(init, keep);
      assert [last][1..] == [];
    }
  }

  /** Two complementary filters split a sequence exactly: every element lands
      in one of the two results and none is duplicated or lost. */
  lemma {:induction false} FilterPartition<T>(s: seq<T>, p: T -> bool, q: T -> bool)
    requires forall x :: q(x) == !p(x)
    ensures multiset(Filter(s, p)) + multiset(Filter(s, q)) == multiset(s)
    ensures |Filter(s, p)| + |Filter(s, q)| == |s|
  {
    if |s| > 0 {
      assert s == [s[0]] + s[1..];
      FilterPartition(s[1..], p, q);
    }
  }

  /** `Filter` keeps nothing exactly when no element satisfies `keep`. */
  lemma {:induction false} FilterEmpty<T>(s: seq<T>, keep: T -> bool)
    ensures Filter(s, keep) == [] <==> forall i :: 0 <= i < |s| ==> !keep(s[i])
  {
    if |s| > 0 {
      FilterEmpty(s[1..], keep);
      if !keep(s[0]) {
        assert forall i :: 1 <= i < |s| ==> s[i] == s[1..][i - 1];
      }
    }
  }

  /** A property every element of `s` has is kept by every element `Filter` keeps. */
  lemma {:induction false} FilterKeepsProperty<T>(s: seq<T>, keep: T -> bool, prop: T -> bool)
    requires forall i :: 0 <= i < |s| ==> prop(s[i])
    ensures forall i :: 0 <= i < |Filter(s, keep)| ==> prop(Filter(s, keep)[i])
  {
    if |s| > 0 {
      FilterKeepsProperty(s[1..], keep, prop);
    }
  }

  /** Filter drops no element that satisfies `keep`. */
  lemma {:induction false} FilterHas<T>(s: seq<T>, keep: T -> bool, j: nat)
    requires j < |s| && keep(s[j])
    ensures s[j] in Filter(s, keep)
  {
    if j > 0 {
      FilterHas(s[1..], keep, j - 1);
    }
  }
}

=== FILE: text.dfy ===
/** JavaScript's `String.prototype.trim`, which the scrapers apply to every cell. */
module Text {

  /** ECMAScript WhiteSpace and LineTerminator code points: the characters
      `trim` removes (ECMA-262, String.prototype.trim). */
  predicate IsWhite(c: char) {
    || c == '\U{0009}' || c == '\U{000B}' || c == '\U{000C}' || c == '\U{0020}'
    || c == '\U{00A0}' || c == '\U{FEFF}' || c == '\U{1680}'
    || ('\U{2000}' <= c <= '\U{200A}')
    || c == '\U{202F}' || c == '\U{205F}' || c == '\U{3000}'
    || c == '\U{000A}' || c == '\U{000D}' || c == '\U{2028}' || c == '\U{2029}'
  }

  /** No leading or trailing white space. */
  predicate IsTrimmed(s: string) {
    |s| == 0 || (!IsWhite(s[0]) && !IsWhite(s[|s| - 1]))
  }

  /** `s` with its leading white space removed: a suffix of `s`, everything
      cut off is white, and what is left does not start with white space. */
  function TrimStart(s: string): (r: string)
    ensures |r| <= |s| && r == s[|s| - |r|..]
    ensures forall i :: 0 <= i < |s| - |r| ==> IsWhite(s[i])
    ensures |r| == 0 || !IsWhite(r[0])
  {
    if |s| > 0 && IsWhite(s[0]) then TrimStart(s[1..]) else s
  }

  /** `s` with its trailing white space removed: a prefix of `s`, everything
      cut off is white, and what is left does not end with white space. */
  function TrimEnd(s: string): (r: string)
    ensures |r| <= |s| && r == s[..|r|]
    ensures forall i :: |r| <= i < |s| ==> IsWhite(s[i])
    ensures |r| == 0 || !IsWhite(r[|r| - 1])
  {
    if |s| > 0 && IsWhite(s[|s| - 1]) then TrimEnd(s[..|s| - 1]) else s
  }

  /** The number of leading white-space characters of `s`. */
  function Lead(s: string): (n: nat)
    ensures n <= |s|
  {
    |s| - |TrimStart(s)|
  }

  /** `s.trim()`: the one contiguous slice of `s` that drops only white space
      on both sides and keeps no white space at either end. */
  function Trim(s: string): (r: string)
    ensures Lead(s) + |r| <= |s| && r == s[Lead(s)..Lead(s) + |r|]
    ensures forall i :: 0 <= i < Lead(s) ==> IsWhite(s[i])
    ensures forall i :: Lead(s) + |r| <= i < |s| ==> IsWhite(s[i])
    ensures IsTrimmed(r)
  {
    var t := TrimStart(s);
    var r := TrimEnd(t);
    assert |r| > 0 ==> r[0] == t[0];
    r
  }

  /** Trimming is idempotent: a trimmed string is its own trim. */
  lemma {:induction false} TrimIdempotent(s: string)
    ensures Trim(Trim(s)) == Trim(s)
  {
    TrimFixesTrimmed(Trim(s));
  }

  /** A string with no white space at either end is left unchanged by `Trim`. */
  lemma {:induction false} TrimFixesTrimmed(s: string)
    requires IsTrimmed(s)
    ensures Trim(s) == s
  {
  }
}

=== FILE: wrappers.dfy ===
/** A value that may be missing: the model's reading of JavaScript's `undefined`
    for an absent property, and of an adapter call that produced nothing. */
module Wrappers {

  datatype Option<+T> = None | Some(value: T) {

    /** The wrapped value, or `default` when there is none. */
    function GetOr(default: T): T {
      match this
      case Some(v) => v
      case None => default
    }
  }
}
